=== FILE: README.md ===
# SLERP vs LERP visualizer — a Dafny model of its core

The visualizer animates spherical linear interpolation (SLERP) against
normalized linear interpolation (LERP) between two direction vectors, in 2D
or 3D, on a pygame canvas. This project models its non-graphical core, all
of it in `slerp.py`:

- `vectors.dfy` (`Vectors`): the 2- and 3-component tuples and `dot`,
  `length`, `normalize`, `add`, `mul`, `lerp`.
- `interpolation.dfy` (`Interpolation`): `slerp`. It normalizes both
  inputs, clamps the cosine into [-1, 1], and then either falls back to
  `normalize(lerp(a, b, t))` or applies the weighted sine blend.
- `projection.dfy` (`Projection`): `world_to_screen_2d` and
  `world_to_screen_3d`. The 3D map is yaw, then pitch, then a
  fixed-distance perspective scale. Python's `round` is modelled too.
- `animation.dfy` (`Animation`): the ping-pong sweep of `t` (variables
  `t`, `dir_sign` and `speed` of `main`). It covers the advance step and
  the held-key speed change.
- `scene.dfy` (`Scene`): one iteration of the main loop as a pure
  function `Frame`. It covers the events, the held keys and the advance.
- `options.dfy` (`Options`): the `Option` type, for the projection that
  Python would abort and for "no R press in this frame".
- `mathlib.dfy` (`MathLib`): the functions taken from Python's `math`
  module, and the laws that the lemmas use.

Arithmetic is over Dafny's `real`. `sqrt`, `sin`, `cos` and `acos` are
fields of a `Libm` record that the caller passes in. A lemma that depends
on them names its laws as preconditions:
- `IsSqrt`: a non-negative root whose square is its argument.
- `Pythagorean`: cos² + sin² = 1.
- `TrigAtZero`: sin 0 = 0 and cos 0 = 1.

`hypot(x, y)` is `sqrt(x*x + y*y)`, which is exact over the reals.

The source picks the code path from the length of the FIRST argument only.
A 2D `a` with a 3D `b` therefore runs and ignores `b`'s z. A 3D `a` with a
2D `b` raises `IndexError`. `Vectors.Fits(a, b)` (`a.Dim() <= b.Dim()`) is
exactly the set of calls that do not raise, and it is the only requirement
of the binary operations.

Notes on the program's behaviour:
- Speed keys: LEFT only applies `max(0.1, …)` and RIGHT only applies
  `min(3.0, …)`. A speed outside [0.1, 3.0] is therefore not always pulled
  back into range: LEFT alone leaves a speed above 3.0 above it while
  `0.5·dt < speed - 3.0`, and RIGHT alone leaves a speed below 0.1 below
  it while `speed + 0.5·dt < 0.1`. The bound is promised for speeds that
  start inside it, which every reachable speed does.
- Both speed keys held: they cancel, except when `speed - 0.5·dt` falls
  below 0.1. LEFT then clamps to 0.1 first, and RIGHT lifts that to
  `min(3.0, 0.1 + 0.5·dt)`, so the speed can rise.
- Sweep scenario: at speed 1, fifteen 0.1 s frames starting from t = 0 end
  at exactly t = 0.5 with direction -1 over the reals. In floating point
  the sum of ten steps of 0.1 falls just short of 1, so the top is reached
  one frame later.
- Perspective divide: `radius / (3.0 + z2)` in slerp.py:93 has no guard,
  and Python raises `ZeroDivisionError` at depth zero. The model returns
  `None` there. It proves that this never happens for vectors shorter than
  the camera distance, which includes every unit vector and axis the
  program draws.
- Endpoints: every R press in a frame reassigns both endpoints, so the
  pair drawn for the last press is the one that stays.

## Model

| member | source | states |
|---|---|---|
| Vectors.Dot | slerp.py:17-21 | `dot` itself, over the components of the first argument only (a 3D second argument with a 2D first one is read as its x-y part); it carries no contract of its own, and its laws are the three lemmas below |
| Vectors.Length | slerp.py:23-27 | given a lawful sqrt, the length is non-negative and its square is the dot product of the vector with itself |
| Vectors.DotSelfNonNegative | slerp.py:17-21 | the dot product of a vector with itself is never negative, so `length` always takes the root of a non-negative number |
| Vectors.DotSymmetric | slerp.py:17-21 | `dot` does not depend on the order of two equal-dimension arguments |
| Vectors.DotMul | slerp.py:17-21 | scaling either argument of `dot` scales the result by the same factor |
| Vectors.Add | slerp.py:41-45 | the sum has the dimension of the first argument, including when a 3D second argument is truncated |
| Vectors.AddCommutative | slerp.py:41-45 | for equal dimensions, `add(a, b) == add(b, a)` |
| Vectors.Mul | slerp.py:47-51 | scaling keeps the dimension |
| Vectors.MulOne | slerp.py:47-51 | scaling by 1 is the identity |
| Vectors.Lerp | slerp.py:53-54 | the interpolant has the dimension of the first argument |
| Vectors.LerpAtZero | slerp.py:53-54 | `lerp(a, b, 0) == a` for every call that does not raise |
| Vectors.LerpAtOne | slerp.py:53-54 | `lerp(a, b, 1) == b` for equal dimensions |
| Vectors.LerpSwap | slerp.py:53-54 | `lerp(a, b, t) == lerp(b, a, 1 - t)` |
| Vectors.LerpSame | slerp.py:53-54 | interpolating a vector with itself gives that vector at every t |
| Vectors.AxisX | slerp.py:31-35 | the fallback of `normalize` is the first axis of the input's dimension |
| Vectors.Normalize | slerp.py:29-39 | the result keeps the input's dimension, and below length 1e-12 it is the first axis `(1,0)` or `(1,0,0)` |
| Vectors.NormalizeScales | slerp.py:36-39 | above the threshold, multiplying the result by the input's length gives back the input |
| Vectors.NormalizeIsUnit | slerp.py:29-39 | given a lawful sqrt, the result always has squared length 1, in both the fallback and the division branch |
| Vectors.NormalizeAligned | slerp.py:36-39 | above the threshold, the result points along the input: its dot product with the input is the input's length |
| Vectors.NormalizeIdempotent | slerp.py:29-39 | normalizing an already normalized vector changes nothing |
| Interpolation.Clamp | slerp.py:60 | `max(lo, min(hi, x))` lies in [lo, hi]; it equals x inside the range and the nearer end outside it |
| Interpolation.SlerpCosine | slerp.py:60 | the dot product of the (normalized) inputs, clamped, always lies in [-1, 1], the domain of `acos` |
| Interpolation.ClampIsNoOpOverReals | slerp.py:58-60 | for unit vectors of equal dimension (which `Vectors.NormalizeIsUnit` shows is what `slerp` feeds the clamp) the dot product already lies in [-1, 1] and the clamp returns it unchanged: it only guards against rounding overshoot |
| Interpolation.Slerp | slerp.py:56-68 | the result has the first input's dimension, and when sin(theta) < 1e-6 it equals `normalize(lerp(normalize(a_in), normalize(b_in), t))` |
| Interpolation.ArcBlend | slerp.py:66-68 | the weighted sine blend keeps the first vector's dimension |
| Interpolation.ArcBlendSwap | slerp.py:66-68 | swapping the vectors and replacing t with 1 - t swaps the two weights and leaves the blend unchanged |
| Interpolation.ArcBlendAtZero | slerp.py:66-68 | given sin 0 = 0, the blend at t = 0 is exactly its first vector |
| Interpolation.SlerpDegenerateIsUnit | slerp.py:63-65 | the degenerate fallback always returns a unit vector |
| Interpolation.SlerpSymmetric | slerp.py:56-68 | `slerp(a, b, t) == slerp(b, a, 1 - t)` in both branches, with no trigonometric law needed |
| Interpolation.SlerpAtZero | slerp.py:56-68 | given a lawful sqrt and sin 0 = 0, `slerp(a, b, 0)` is exactly `normalize(a)` |
| Interpolation.SlerpAtOne | slerp.py:56-68 | under the same laws and equal dimensions, `slerp(a, b, 1)` is exactly `normalize(b)` |
| Projection.RoundHalfEven | slerp.py:75 | Python's `round`: within 1/2 of its argument, with ties going to the even integer |
| Projection.RoundingIsUnique | slerp.py:75 | at most one integer is within 1/2 of a real and even on a tie, so the rounding contract determines the result |
| Projection.RoundIsNonDecreasing | slerp.py:75 | rounding, as a function, never decreases |
| Projection.RoundMonotone | slerp.py:75 | rounding never reverses the order of two values |
| Projection.RoundOfInteger | slerp.py:75 | an integral value rounds to itself |
| Projection.WorldToScreen2D | slerp.py:71-75 | each screen coordinate is Python's rounding (within 1/2, ties to even) of `cx + x*radius` and `cy - y*radius` |
| Projection.OriginToCenter | slerp.py:71-75 | every vector with x = y = 0 (the origin, or a 3D vector on the z axis) lands exactly on the screen center `(cx, cy)` |
| Projection.Screen2DFollowsX | slerp.py:73-75 | for a non-negative radius, screen x does not decrease as world x grows |
| Projection.Screen2DFlipsY | slerp.py:72-75 | for a non-negative radius, screen y does not increase as world y grows (the y-axis flip) |
| Projection.Yaw | slerp.py:79-83 | the yaw rotation leaves y unchanged |
| Projection.Pitch | slerp.py:85-89 | the pitch rotation leaves x unchanged |
| Projection.ViewRotate | slerp.py:79-89 | after yaw then pitch, x is the x that the yaw step produced |
| Projection.YawPreservesNorm | slerp.py:79-83 | given cos² + sin² = 1, the yaw step keeps the sum of squared components |
| Projection.PitchPreservesNorm | slerp.py:85-89 | given cos² + sin² = 1, the pitch step keeps the sum of squared components |
| Projection.ViewRotatePreservesNorm | slerp.py:79-89 | the whole view rotation keeps the sum of squared components |
| Projection.Perspective | slerp.py:91-97 | the projection fails (the source raises `ZeroDivisionError`) exactly when `3.0 + z2 == 0`; otherwise the point is the rounding of `cx + x2*radius/(3+z2)` and `cy - y2*radius/(3+z2)` |
| Projection.WorldToScreen3D | slerp.py:77-97 | the 3D projection fails exactly when the rotated depth `3.0 + z2` is zero; otherwise it is the perspective rounding of the vector after yaw and pitch |
| Projection.ProjectionDefinedInsideCamera | slerp.py:91-93 | given cos² + sin² = 1, every vector with squared length below 9 is projected without dividing by zero |
| Projection.UnrotatedIsPerspective2D | slerp.py:77-97 | with both view angles zero, the 3D projection is the 2D projection at radius `radius / (3 + z)` |
| Animation.Initial | slerp.py:196-198 | the sweep starts valid at t = 0 moving up |
| Animation.Advance | slerp.py:237-241 | afterwards t lies in [0, 1] whatever it was before; reaching 1 or more gives t = 1 and dir = -1, reaching 0 or less gives t = 0 and dir = +1, and anything strictly inside keeps the stepped t and dir; speed is unchanged |
| Animation.AdjustSpeed | slerp.py:231-234 | t and dir are untouched; LEFT alone lowers the speed by exactly 0.5·dt, or to 0.1 when that would go below it; RIGHT alone raises it by exactly 0.5·dt, or to 3.0 when that would go above it; both keys cancel while the speed stays in range, and when `speed - 0.5·dt < 0.1` they give `min(3.0, 0.1 + 0.5·dt)`; with no key nothing changes; for dt ≥ 0 a speed in [0.1, 3.0] stays there |
| Animation.DirectionFlipsAtEnds | slerp.py:237-241 | the direction changes if and only if the step reaches the end that the sweep was moving towards |
| Animation.AdvanceKeepsValid | slerp.py:237-241 | the advance step keeps t in [0, 1], dir in {-1, +1} and speed in [0.1, 3.0] |
| Animation.AdjustSpeedKeepsValid | slerp.py:231-234 | the speed keys keep a valid state valid when dt ≥ 0 |
| Animation.AdvanceFollowsDirection | slerp.py:237-241 | with dt ≥ 0, t never decreases while dir = +1 and never increases while dir = -1 |
| Animation.SweepGlides | slerp.py:237-241 | between bounces the sweep is linear: while the stepped values stay strictly inside (0, 1), n frames move t by n times `dir * speed * dt` and keep dir and speed |
| Animation.SweepSplit | slerp.py:237-241 | running m + n frames is running m frames and then n more |
| Animation.PingPongScenario | slerp.py:237-241 | at speed 1, fifteen 0.1 s frames from t = 0 bounce off 1 and end at t = 0.5 with dir = -1 |
| Scene.Initial | slerp.py:185-199 | both 2D and 3D sessions start valid, running, with the overlay on and t = 0 |
| Scene.HandleEvent | slerp.py:206-217 | QUIT clears the running flag, SPACE flips the overlay, R replaces both endpoints with the drawn pair, and nothing else changes |
| Scene.LastRandomize | slerp.py:211-217 | there is a last R press iff some event is an R press, and its pair is one of the pairs drawn in the frame |
| Scene.LastRandomizeCons | slerp.py:205-217 | an earlier event decides the last R press only when no later event is an R press |
| Scene.HandleEvents | slerp.py:205-217 | the loop stops iff some event is QUIT, the overlay flips once per SPACE, the endpoints are the pair of the last R press (unchanged when there is none), and nothing else changes |
| Scene.Turn | slerp.py:222-229 | opposite keys cancel; with dt ≥ 0 the plus key alone turns forward and the minus key alone turns back |
| Scene.RotateView | slerp.py:221-229 | only the two angles change, each by its net held-key turn |
| Scene.RotationAccumulates | slerp.py:221-229 | holding the same keys for frames of dt1 and dt2 turns the view as far as one frame of dt1 + dt2 |
| Scene.HeldKeys | slerp.py:220-234 | in 3D mode each angle turns by its net held-key turn and the animation is untouched; in 2D mode the animation gets the speed-key change and the angles are untouched; the endpoints and flags never change |
| Scene.Frame | slerp.py:202-241 | the animation is advanced by one `dt` after the held keys (the speed keys in 2D, none in 3D), so t lies in [0, 1]; the mode never changes; running and overlay follow the events; the endpoints are the pair of the last R press, or unchanged without one; 3D frames turn each angle by its net held-key turn; 2D frames keep the angles |
| Scene.ToggleTwice | slerp.py:209-210 | two SPACE presses in one frame leave the scene as it was |
| Scene.FrameKeepsValid | slerp.py:202-241 | with dt ≥ 0 and samples of the session's dimension, one frame keeps the scene valid |
| Scene.Run | slerp.py:201-202 | the loop keeps running iff it was running and no frame brought a QUIT; a stopped loop changes nothing; the mode never changes |
| Scene.RunOneFrame | slerp.py:201-202 | one input to a running loop is one `Frame`; a stopped loop ignores it |
| Scene.RunSplit | slerp.py:201-202 | running two stretches of input back to back is running their concatenation, so the loop is `Frame` applied to each input in turn until the first QUIT |
| Scene.RunKeepsValid | slerp.py:201-241 | every run of the loop from a valid scene stays valid: t in [0, 1], dir in {-1, +1}, speed in [0.1, 3.0], endpoints of the session's dimension |

## Left out

- Drawing and windowing are not modelled: `draw_arrow`, `show_menu`, surface filling, fonts and text, `pygame.event.get`, `pygame.key.get_pressed` and the calls at slerp.py:243-320. They are I/O through pygame. The events and held keys of a frame are inputs of `Scene.Frame`. The 2D/3D choice from the menu is the `is3d` flag.
- Interpolants and screen points are not computed per frame: the `slerp` and `normalize(lerp(…))` at slerp.py:244-245 and the projections at slerp.py:259-293. They only call members modelled above.
- `clock.tick(60)` is not modelled: the frame's `dt` is an input, and the lemmas require `dt >= 0`.
- `random_unit_vec_2d` and `random_unit_vec_3d` are not modelled. They are random sampling, and their point is the uniformity of the distribution. The two vectors drawn for an R press arrive as the payload of `Scene.Event.Randomize`. `Scene.FrameKeepsValid` only requires that they have the session's dimension.
- IEEE floating point (rounding, overflow, NaN) is not modelled: everything is over `real`. The thresholds 1e-12 and 1e-6 are kept as written.
- `sqrt`, `hypot`, `sin`, `cos` and `acos` are caller-supplied functions. Only the laws named in each lemma are assumed about them.
- Interpolation.Slerp: the unit length of the non-degenerate result is not stated. It needs angle-addition identities for `sin` and `acos`, which the model does not assume.
- Projection.WorldToScreen3D: it requires a 3-component vector. With 2 components the source raises `IndexError`, and the program never calls it that way.

=== FILE: animation.dfy ===
/** The ping-pong animation of the interpolation parameter `t`: it sweeps
    from 0 to 1 and back at `speed` units per second, and held keys in 2D
    mode change the speed within fixed bounds.
 */
module Animation {

  /** `t` in [0, 1], `dir` the sign of its motion (+1 or -1, a float in the
      source), `speed` in t-units per second. */
  datatype AnimState = AnimState(t: real, dir: real, speed: real)

  const SpeedMin: real := 0.1
  const SpeedMax: real := 3.0
  /** Speed change per second while LEFT or RIGHT is held. */
  const SpeedRate: real := 0.5
  const InitialSpeed: real := 0.75

  /** The states the animation can be in between frames. */
  predicate Valid(s: AnimState) {
    && 0.0 <= s.t <= 1.0
    && (s.dir == 1.0 || s.dir == -1.0)
    && SpeedMin <= s.speed <= SpeedMax
  }

  function Initial(): (s: AnimState)
    ensures Valid(s) && s.t == 0.0 && s.dir == 1.0
  {
    AnimState(0.0, 1.0, InitialSpeed)
  }

  /** How far one frame of `dt` seconds moves `t`, with its sign. */
  function Velocity(s: AnimState, dt: real): real {
    s.dir * s.speed * dt
  }

  /** `t` moved by one frame before any clamping. */
  function Stepped(s: AnimState, dt: real): real {
    s.t + Velocity(s, dt)
  }

  /** One frame of the sweep: move `t`, then clamp it into [0, 1], turning
      back at whichever end it reached. The upper end is tested first. */
  function Advance(s: AnimState, dt: real): (r: AnimState)
    ensures 0.0 <= r.t <= 1.0
    ensures r.speed == s.speed
    ensures 1.0 <= Stepped(s, dt) ==> r.t == 1.0 && r.dir == -1.0
    ensures Stepped(s, dt) <= 0.0 ==> r.t == 0.0 && r.dir == 1.0
    ensures 0.0 < Stepped(s, dt) < 1.0 ==> r.t == Stepped(s, dt) && r.dir == s.dir
  {
    var t := Stepped(s, dt);
    if t >= 1.0 then s.(t := 1.0, dir := -1.0)
    else if t <= 0.0 then s.(t := 0.0, dir := 1.0)
    else s.(t := t)
  }

  /** The held-key speed change of 2D mode: LEFT slows down to no less than
      `SpeedMin`, then RIGHT speeds up to no more than `SpeedMax`. */
  function AdjustSpeed(s: AnimState, left: bool, right: bool, dt: real): (r: AnimState)
    ensures r.t == s.t && r.dir == s.dir
    ensures 0.0 <= dt && SpeedMin <= s.speed <= SpeedMax ==> SpeedMin <= r.speed <= SpeedMax
    ensures !left && !right ==> r == s
    ensures 0.0 <= dt && SpeedMin <= s.speed <= SpeedMax && left && !right ==> r.speed <= s.speed
    ensures 0.0 <= dt && SpeedMin <= s.speed <= SpeedMax && right && !left ==> s.speed <= r.speed
    ensures left && !right && SpeedMin <= s.speed - SpeedRate * dt ==> r.speed == s.speed - SpeedRate * dt
    ensures left && !right && s.speed - SpeedRate * dt < SpeedMin ==> r.speed == SpeedMin
    ensures right && !left && s.speed + SpeedRate * dt <= SpeedMax ==> r.speed == s.speed + SpeedRate * dt
    ensures right && !left && SpeedMax < s.speed + SpeedRate * dt ==> r.speed == SpeedMax
    ensures left && right && SpeedMin <= s.speed - SpeedRate * dt && s.speed <= SpeedMax ==> r.speed == s.speed
    ensures left && right && s.speed - SpeedRate * dt < SpeedMin ==> r.speed == Min(SpeedMax, SpeedMin + SpeedRate * dt)
  {
    var slower := if left then s.(speed := Max(SpeedMin, s.speed - SpeedRate * dt)) else s;
    if right then slower.(speed := Min(SpeedMax, slower.speed + SpeedRate * dt)) else slower
  }

  function Max(a: real, b: real): (r: real)
    ensures a <= r && b <= r && (r == a || r == b)
  {
    if a < b then b else a
  }

  function Min(a: real, b: real): (r: real)
    ensures r <= a && r <= b && (r == a || r == b)
  {
    if b < a then b else a
  }

  // ---------------------------------------------------------------------

  /** The direction changes exactly when the sweep hits an end it was
      moving towards. */
  lemma DirectionFlipsAtEnds(s: AnimState, dt: real)
    requires Valid(s)
    ensures Advance(s, dt).dir != s.dir <==>
              (1.0 <= Stepped(s, dt) && s.dir == 1.0) || (Stepped(s, dt) <= 0.0 && s.dir == -1.0)
  {
  }

  lemma AdvanceKeepsValid(s: AnimState, dt: real)
    requires Valid(s)
    ensures Valid(Advance(s, dt))
  {
  }

  lemma AdjustSpeedKeepsValid(s: AnimState, left: bool, right: bool, dt: real)
    requires Valid(s) && 0.0 <= dt
    ensures Valid(AdjustSpeed(s, left, right, dt))
  {
  }

  /** Between turns `t` moves the way `dir` points. */
  lemma AdvanceFollowsDirection(s: AnimState, dt: real)
    requires Valid(s) && 0.0 <= dt
    ensures s.dir == 1.0 ==> s.t <= Advance(s, dt).t
    ensures s.dir == -1.0 ==> Advance(s, dt).t <= s.t
  {
    ProductSign(s.speed, dt);
  }

  lemma ProductSign(a: real, b: real)
    requires 0.0 <= a
    ensures 0.0 <= b ==> 0.0 <= a * b
    ensures b <= 0.0 ==> a * b <= 0.0
  {
  }

  /** `n` frames of `dt` seconds each, without speed changes. */
  function Sweep(s: AnimState, dt: real, n: nat): AnimState
    decreases n
  {
    if n == 0 then s else Sweep(Advance(s, dt), dt, n - 1)
  }

  /** Running `m + n` frames is running `m` frames and then `n` more. */
  lemma {:induction false} SweepSplit(s: AnimState, dt: real, m: nat, n: nat)
    ensures Sweep(s, dt, m + n) == Sweep(Sweep(s, dt, m), dt, n)
    decreases m
  {
    if m > 0 {
      SweepSplit(Advance(s, dt), dt, m - 1, n);
    }
  }

  /** Between turns the sweep is linear: while the stepped values stay
      strictly inside (0, 1), `n` frames move `t` by `n` times the
      one-frame velocity and change nothing else. */
  lemma {:induction false} SweepGlides(s: AnimState, dt: real, n: nat)
    requires 0.0 <= s.t <= 1.0 && 0 < n
    requires 0.0 < s.t + (n as real) * Velocity(s, dt) < 1.0
    ensures Sweep(s, dt, n) == s.(t := s.t + (n as real) * Velocity(s, dt))
    decreases n
  {
    var v := Velocity(s, dt);
    GlideStep(s.t, (n - 1) as real, v);
    var next := Advance(s, dt);
    assert next == s.(t := s.t + v);
    assert Velocity(next, dt) == v;
    if n > 1 {
      SweepGlides(next, dt, n - 1);
    }
  }

  /** The arithmetic of one glide step: the first step already lies inside
      (0, 1), and the remaining `k` steps reach the same end point. */
  lemma GlideStep(t: real, k: real, v: real)
    requires 0.0 <= t <= 1.0 && 0.0 <= k
    requires 0.0 < t + (k + 1.0) * v < 1.0
    ensures 0.0 < t + v < 1.0
    ensures (t + v) + k * v == t + (k + 1.0) * v
  {
    ProductSign(k, v);
  }

  /** At speed 1, fifteen frames of 0.1 s from the start climb for nine
      frames, hit the top exactly on the tenth and turn back, and end
      halfway down. */
  lemma PingPongScenario(start: AnimState, dt: real)
    requires start == AnimState(0.0, 1.0, 1.0) && dt == 0.1
    ensures Sweep(start, dt, 15) == AnimState(0.5, -1.0, 1.0)
  {
    SweepSplit(start, dt, 9, 6);
    assert Sweep(start, dt, 15) == Sweep(Sweep(start, dt, 9), dt, 6);
    ScenarioClimb(start, dt);
    assert Sweep(start, dt, 15) == Sweep(AnimState(0.9, 1.0, 1.0), dt, 6);
    ScenarioTurn(AnimState(0.9, 1.0, 1.0), dt);
    ScenarioDescent(AnimState(1.0, -1.0, 1.0), dt);
  }

  // The three legs of the scenario take their state and frame length as
  // parameters pinned by `requires`: with all-literal arguments the
  // solver keeps unfolding `Sweep` on the constants.

  lemma ScenarioClimb(s: AnimState, dt: real)
    requires s == AnimState(0.0, 1.0, 1.0) && dt == 0.1
    ensures Sweep(s, dt, 9) == AnimState(0.9, 1.0, 1.0)
  {
    assert Velocity(s, dt) == 0.1;
    SweepGlides(s, dt, 9);
  }

  lemma ScenarioTurn(s: AnimState, dt: real)
    requires s == AnimState(0.9, 1.0, 1.0) && dt == 0.1
    ensures Sweep(s, dt, 6) == Sweep(AnimState(1.0, -1.0, 1.0), dt, 5)
  {
    assert Advance(s, dt) == AnimState(1.0, -1.0, 1.0);
  }

  lemma ScenarioDescent(s: AnimState, dt: real)
    requires s == AnimState(1.0, -1.0, 1.0) && dt == 0.1
    ensures Sweep(s, dt, 5) == AnimState(0.5, -1.0, 1.0)
  {
    assert Velocity(s, dt) == -0.1;
    SweepGlides(s, dt, 5);
  }
}

=== FILE: interpolation.dfy ===
/** Spherical linear interpolation (`slerp`) with its two safety valves:
    the cosine is clamped into the domain of `acos`, and when the sine of
    the angle is tiny the interpolation falls back to a normalized `lerp`.
 */
module Interpolation {
  import opened MathLib
  import opened Vectors

  /** Below this value of sin(theta) the weighted-sum formula is abandoned. */
  const DegenerateSine: real := 1e-6

  /** `max(lo, min(hi, x))`. */
  function Clamp(lo: real, hi: real, x: real): (r: real)
    requires lo <= hi
    ensures lo <= r <= hi
    ensures lo <= x <= hi ==> r == x
    ensures x < lo ==> r == lo
    ensures hi < x ==> r == hi
  {
    var upper := if hi < x then hi else x;
    if upper < lo then lo else upper
  }

  /** The value `slerp` hands to `acos`: the dot product of the normalized
      inputs `a` and `b`, clamped into [-1, 1]. */
  function SlerpCosine(a: Vec, b: Vec): (d: real)
    requires Fits(a, b)
    ensures -1.0 <= d <= 1.0
  {
    Clamp(-1.0, 1.0, Dot(a, b))
  }

  /** theta, the angle between the normalized inputs. */
  function SlerpAngle(m: Libm, aIn: Vec, bIn: Vec): real
    requires Fits(aIn, bIn)
  {
    m.acos(SlerpCosine(Normalize(m, aIn), Normalize(m, bIn)))
  }

  /** sin(theta) is too small for the weighted-sum formula. */
  predicate IsDegenerate(m: Libm, aIn: Vec, bIn: Vec)
    requires Fits(aIn, bIn)
  {
    m.sin(SlerpAngle(m, aIn, bIn)) < DegenerateSine
  }

  function Slerp(m: Libm, aIn: Vec, bIn: Vec, t: real): (r: Vec)
    requires Fits(aIn, bIn)
    ensures r.Dim() == aIn.Dim()
    ensures IsDegenerate(m, aIn, bIn) ==>
              r == Normalize(m, Lerp(Normalize(m, aIn), Normalize(m, bIn), t))
  {
    var a := Normalize(m, aIn);
    var b := Normalize(m, bIn);
    var theta := SlerpAngle(m, aIn, bIn);
    var s := m.sin(theta);
    if s < DegenerateSine then
      Normalize(m, Lerp(a, b, t))
    else
      ArcBlend(m, a, b, theta, t)
  }

  /** The non-degenerate branch of `slerp`:
      `a * sin((1-t) theta) / sin(theta) + b * sin(t theta) / sin(theta)`. */
  function ArcBlend(m: Libm, a: Vec, b: Vec, theta: real, t: real): (r: Vec)
    requires Fits(a, b) && m.sin(theta) != 0.0
    ensures r.Dim() == a.Dim()
  {
    var s := m.sin(theta);
    Add(Mul(a, m.sin((1.0 - t) * theta) / s), Mul(b, m.sin(t * theta) / s))
  }

  /** The blend weights of `a` and `b` trade places when `t` becomes `1 - t`. */
  lemma ArcBlendSwap(m: Libm, a: Vec, b: Vec, theta: real, t: real)
    requires a.Dim() == b.Dim() && m.sin(theta) != 0.0
    ensures ArcBlend(m, a, b, theta, t) == ArcBlend(m, b, a, theta, 1.0 - t)
  {
    var s := m.sin(theta);
    assert (1.0 - (1.0 - t)) * theta == t * theta;
    AddCommutative(Mul(a, m.sin((1.0 - t) * theta) / s), Mul(b, m.sin(t * theta) / s));
  }

  /** With sin(0) == 0 the blend at t = 0 is its first vector. */
  lemma ArcBlendAtZero(m: Libm, a: Vec, b: Vec, theta: real)
    requires m.sin(0.0) == 0.0
    requires Fits(a, b) && m.sin(theta) != 0.0
    ensures ArcBlend(m, a, b, theta, 0.0) == a
  {
    var s := m.sin(theta);
    assert (1.0 - 0.0) * theta == theta;
    assert 0.0 * theta == 0.0;
    assert s / s == 1.0;
    MulOne(a);
  }

  // ---------------------------------------------------------------------

  /** Over the reals the clamp never bites: `slerp` feeds it normalized,
      hence unit, vectors (`NormalizeIsUnit`), whose dot product already
      lies in [-1, 1] by Cauchy-Schwarz, here from |a - b|^2 >= 0 and
      |a + b|^2 >= 0. The clamp only guards against floating-point
      overshoot. */
  lemma ClampIsNoOpOverReals(a: Vec, b: Vec)
    requires a.Dim() == b.Dim()
    requires Dot(a, a) == 1.0 && Dot(b, b) == 1.0
    ensures -1.0 <= Dot(a, b) <= 1.0
    ensures SlerpCosine(a, b) == Dot(a, b)
  {
    var minus := Add(a, Mul(b, -1.0));
    var plus := Add(a, b);
    DotSelfNonNegative(minus);
    DotSelfNonNegative(plus);
    DotExpand(a, b);
  }

  lemma DotExpand(a: Vec, b: Vec)
    requires a.Dim() == b.Dim()
    ensures Dot(Add(a, Mul(b, -1.0)), Add(a, Mul(b, -1.0)))
            == Dot(a, a) - 2.0 * Dot(a, b) + Dot(b, b)
    ensures Dot(Add(a, b), Add(a, b)) == Dot(a, a) + 2.0 * Dot(a, b) + Dot(b, b)
  {
  }

  /** In the degenerate case the result is still a unit vector. */
  lemma SlerpDegenerateIsUnit(m: Libm, aIn: Vec, bIn: Vec, t: real)
    requires IsSqrt(m.sqrt)
    requires Fits(aIn, bIn) && IsDegenerate(m, aIn, bIn)
    ensures Dot(Slerp(m, aIn, bIn, t), Slerp(m, aIn, bIn, t)) == 1.0
  {
    NormalizeIsUnit(m, Lerp(Normalize(m, aIn), Normalize(m, bIn), t));
  }

  /** Going from a to b at t is going from b to a at 1 - t, in both branches. */
  lemma SlerpSymmetric(m: Libm, aIn: Vec, bIn: Vec, t: real)
    requires aIn.Dim() == bIn.Dim()
    ensures Slerp(m, aIn, bIn, t) == Slerp(m, bIn, aIn, 1.0 - t)
  {
    var a := Normalize(m, aIn);
    var b := Normalize(m, bIn);
    DotSymmetric(a, b);
    assert SlerpAngle(m, aIn, bIn) == SlerpAngle(m, bIn, aIn);
    LerpSwap(a, b, t);
    var theta := SlerpAngle(m, aIn, bIn);
    if DegenerateSine <= m.sin(theta) {
      ArcBlendSwap(m, a, b, theta, t);
    }
  }

  /** At t = 0 the result is the normalized first input, exactly. */
  lemma SlerpAtZero(m: Libm, aIn: Vec, bIn: Vec)
    requires IsSqrt(m.sqrt) && m.sin(0.0) == 0.0
    requires Fits(aIn, bIn)
    ensures Slerp(m, aIn, bIn, 0.0) == Normalize(m, aIn)
  {
    var a := Normalize(m, aIn);
    var b := Normalize(m, bIn);
    var theta := SlerpAngle(m, aIn, bIn);
    var s := m.sin(theta);
    if s < DegenerateSine {
      LerpAtZero(a, b);
      NormalizeIdempotent(m, aIn);
    } else {
      ArcBlendAtZero(m, a, b, theta);
    }
  }

  /** At t = 1 the result is the normalized second input, exactly. */
  lemma SlerpAtOne(m: Libm, aIn: Vec, bIn: Vec)
    requires IsSqrt(m.sqrt) && m.sin(0.0) == 0.0
    requires aIn.Dim() == bIn.Dim()
    ensures Slerp(m, aIn, bIn, 1.0) == Normalize(m, bIn)
  {
    SlerpSymmetric(m, aIn, bIn, 1.0);
    SlerpAtZero(m, bIn, aIn);
  }
}

=== FILE: mathlib.dfy ===
/** The transcendental functions the visualizer takes from Python's `math`
    module (`sqrt`, `hypot`, `sin`, `cos`, `acos`).

    They cannot be computed exactly over the reals, so they enter the model as
    a record of function values supplied by the caller. Each law they obey is
    a separate predicate, and a lemma requires exactly the laws its proof
    uses; nothing else about these functions is assumed anywhere.
 */
module MathLib {

  datatype Libm = Libm(
    sqrt: real -> real,
    sin: real -> real,
    cos: real -> real,
    acos: real -> real
  )

  /** `sqrt` returns the non-negative square root of every non-negative real. */
  ghost predicate IsSqrt(sqrt: real -> real) {
    forall x :: 0.0 <= x ==> 0.0 <= sqrt(x) && sqrt(x) * sqrt(x) == x
  }

  /** cos(a)^2 + sin(a)^2 == 1 for every angle. */
  ghost predicate Pythagorean(sin: real -> real, cos: real -> real) {
    forall a :: cos(a) * cos(a) + sin(a) * sin(a) == 1.0
  }

  /** The values at angle zero. */
  ghost predicate TrigAtZero(sin: real -> real, cos: real -> real) {
    sin(0.0) == 0.0 && cos(0.0) == 1.0
  }

  /** The square root of one is one: the fact that makes normalization
      idempotent on unit vectors. */
  lemma SqrtOfOne(sqrt: real -> real)
    requires IsSqrt(sqrt)
    ensures sqrt(1.0) == 1.0
  {
    var r := sqrt(1.0);
    assert 0.0 <= r && r * r == 1.0;
    SquareAgainstOne(r);
  }

  /** Squaring keeps a non-negative real on the same side of one. */
  lemma SquareAgainstOne(r: real)
    requires 0.0 <= r
    ensures r < 1.0 ==> r * r < 1.0
    ensures 1.0 < r ==> 1.0 < r * r
  {
    if r < 1.0 {
      assert r * r <= r * 1.0;
    } else if 1.0 < r {
      assert r * 1.0 < r * r;
    }
  }
}

=== FILE: options.dfy ===
/** An optional value: `None` where the program raises instead of
    returning, or where there is nothing to report. */
module Options {

  datatype Option<T> = None | Some(value: T)
}

=== FILE: projection.dfy ===
/** Mapping world-space vectors to integer screen coordinates: an affine
    map with a y-flip in 2D, and a yaw rotation, a pitch rotation and a
    fixed-distance perspective scale in 3D.
 */
module Projection {
  import opened MathLib
  import opened Vectors
  import opened Options

  datatype ScreenPoint = ScreenPoint(x: int, y: int)

  /** The camera sits this far from the origin along the viewing axis. */
  const CameraDistance: real := 3.0

  /** `r` is what Python's `round` makes of `x`: an integer within 1/2 of
      it, and the even one when `x` lies halfway between two integers.
      `RoundingIsUnique` shows that this pins `r` down. */
  predicate RoundsTo(x: real, r: int) {
    && x - 0.5 <= r as real <= x + 0.5
    && ((r as real - x == 0.5 || x - r as real == 0.5) ==> r % 2 == 0)
  }

  /** Python's `round` on a float: the nearest integer, ties to the even one. */
  function RoundHalfEven(x: real): (r: int)
    ensures RoundsTo(x, r)
  {
    var f := x.Floor;
    var frac := x - f as real;
    if frac < 0.5 then f
    else if frac > 0.5 then f + 1
    else if f % 2 == 0 then f
    else f + 1
  }

  lemma RoundMonotone(a: real, b: real)
    requires a <= b
    ensures RoundHalfEven(a) <= RoundHalfEven(b)
  {
    var fa, fb := a.Floor, b.Floor;
    if fa == fb {
      assert a - fa as real <= b - fb as real;
    } else {
      assert fa < fb;
      assert RoundHalfEven(a) <= fa + 1 <= fb <= RoundHalfEven(b);
    }
  }

  /** A non-decreasing map from reals to integers. */
  ghost predicate NonDecreasing(f: real -> int) {
    forall x: real, y: real :: x <= y ==> f(x) <= f(y)
  }

  lemma RoundIsNonDecreasing()
    ensures NonDecreasing(RoundHalfEven)
  {
    forall x: real, y: real | x <= y
      ensures RoundHalfEven(x) <= RoundHalfEven(y)
    {
      RoundMonotone(x, y);
    }
  }

  /** At most one integer is a correct rounding of `x`. */
  lemma RoundingIsUnique(x: real, r1: int, r2: int)
    requires RoundsTo(x, r1) && RoundsTo(x, r2)
    ensures r1 == r2
  {
    NeighboursDifferInParity(r1);
    NeighboursDifferInParity(r2);
  }

  lemma NeighboursDifferInParity(n: int)
    ensures (n + 1) % 2 != n % 2
  {
  }

  lemma RoundOfInteger(n: int)
    ensures RoundHalfEven(n as real) == n
  {
  }

  /** `world_to_screen_2d`: the first two components, scaled by `radius`,
      with the y axis flipped (math +y is up, screen +y is down). */
  function WorldToScreen2D(v: Vec, cx: int, cy: int, radius: real): (r: ScreenPoint)
    ensures RoundsTo(cx as real + v.x * radius, r.x)
    ensures RoundsTo(cy as real - v.y * radius, r.y)
  {
    ScreenPoint(RoundHalfEven(cx as real + v.x * radius), RoundHalfEven(cy as real - v.y * radius))
  }

  /** The origin of the world lands on the screen center. */
  lemma OriginToCenter(v: Vec, cx: int, cy: int, radius: real)
    requires v.x == 0.0 && v.y == 0.0
    ensures WorldToScreen2D(v, cx, cy, radius) == ScreenPoint(cx, cy)
  {
    RoundOfInteger(cx);
    RoundOfInteger(cy);
  }

  /** Screen x follows world x. */
  lemma Screen2DFollowsX(v: Vec, w: Vec, cx: int, cy: int, radius: real)
    requires 0.0 <= radius && v.x <= w.x
    ensures WorldToScreen2D(v, cx, cy, radius).x <= WorldToScreen2D(w, cx, cy, radius).x
  {
    ScreenCoords(v, cx, cy, radius);
    ScreenCoords(w, cx, cy, radius);
    RoundShift(cx as real, v.x, w.x, radius);
  }

  /** Screen y runs against world y: the y-axis flip. */
  lemma Screen2DFlipsY(v: Vec, w: Vec, cx: int, cy: int, radius: real)
    requires 0.0 <= radius && v.y <= w.y
    ensures WorldToScreen2D(w, cx, cy, radius).y <= WorldToScreen2D(v, cx, cy, radius).y
  {
    ScreenCoords(v, cx, cy, radius);
    ScreenCoords(w, cx, cy, radius);
    RoundShiftDown(cy as real, v.y, w.y, radius);
  }

  lemma ScreenCoords(v: Vec, cx: int, cy: int, radius: real)
    ensures WorldToScreen2D(v, cx, cy, radius).x == RoundHalfEven(cx as real + v.x * radius)
    ensures WorldToScreen2D(v, cx, cy, radius).y == RoundHalfEven(cy as real - v.y * radius)
  {
  }

  lemma RoundShift(c: real, a: real, b: real, k: real)
    requires a <= b && 0.0 <= k
    ensures RoundHalfEven(c + a * k) <= RoundHalfEven(c + b * k)
  {
    RoundIsNonDecreasing();
    ShiftUp(RoundHalfEven, c, a, b, k);
  }

  lemma RoundShiftDown(c: real, a: real, b: real, k: real)
    requires a <= b && 0.0 <= k
    ensures RoundHalfEven(c - b * k) <= RoundHalfEven(c - a * k)
  {
    RoundIsNonDecreasing();
    ShiftDown(RoundHalfEven, c, a, b, k);
  }

  // The two lemmas below see the rounding only as a non-decreasing
  // function, which keeps its floor and parity out of the solver's way
  // while it orders the products.

  lemma ShiftUp(f: real -> int, c: real, a: real, b: real, k: real)
    requires NonDecreasing(f) && a <= b && 0.0 <= k
    ensures f(c + a * k) <= f(c + b * k)
  {
    MulMonotone(a, b, k);
  }

  lemma ShiftDown(f: real -> int, c: real, a: real, b: real, k: real)
    requires NonDecreasing(f) && a <= b && 0.0 <= k
    ensures f(c - b * k) <= f(c - a * k)
  {
    MulMonotone(a, b, k);
  }

  lemma MulMonotone(a: real, b: real, k: real)
    requires a <= b && 0.0 <= k
    ensures a * k <= b * k
  {
  }

  // ---------------------------------------------------------------------
  // 3D view rotation

  /** Rotation by `angle` about the vertical axis: y is left alone. */
  function Yaw(m: Libm, v: Vec, angle: real): (r: Vec)
    requires v.V3?
    ensures r.V3? && r.y == v.y
  {
    var c, s := m.cos(angle), m.sin(angle);
    V3(v.x * c - v.z * s, v.y, v.x * s + v.z * c)
  }

  /** Rotation by `angle` about the horizontal axis: x is left alone. */
  function Pitch(m: Libm, v: Vec, angle: real): (r: Vec)
    requires v.V3?
    ensures r.V3? && r.x == v.x
  {
    var c, s := m.cos(angle), m.sin(angle);
    V3(v.x, v.y * c - v.z * s, v.y * s + v.z * c)
  }

  /** The view rotation of `world_to_screen_3d`: yaw by `rotY`, then pitch
      by `rotX`. */
  function ViewRotate(m: Libm, v: Vec, rotX: real, rotY: real): (r: Vec)
    requires v.V3?
    ensures r.V3? && r.x == Yaw(m, v, rotY).x
  {
    Pitch(m, Yaw(m, v, rotY), rotX)
  }

  /** A plane rotation keeps the sum of squares. */
  lemma PlaneRotation(a: real, b: real, c: real, s: real)
    requires c * c + s * s == 1.0
    ensures (a * c - b * s) * (a * c - b * s) + (a * s + b * c) * (a * s + b * c) == a * a + b * b
  {
    calc {
      (a * c - b * s) * (a * c - b * s) + (a * s + b * c) * (a * s + b * c);
      a * a * (c * c + s * s) + b * b * (c * c + s * s);
      a * a + b * b;
    }
  }

  lemma YawPreservesNorm(m: Libm, v: Vec, angle: real)
    requires Pythagorean(m.sin, m.cos)
    requires v.V3?
    ensures Dot(Yaw(m, v, angle), Yaw(m, v, angle)) == Dot(v, v)
  {
    PlaneRotation(v.x, v.z, m.cos(angle), m.sin(angle));
  }

  lemma PitchPreservesNorm(m: Libm, v: Vec, angle: real)
    requires Pythagorean(m.sin, m.cos)
    requires v.V3?
    ensures Dot(Pitch(m, v, angle), Pitch(m, v, angle)) == Dot(v, v)
  {
    PlaneRotation(v.y, v.z, m.cos(angle), m.sin(angle));
  }

  lemma ViewRotatePreservesNorm(m: Libm, v: Vec, rotX: real, rotY: real)
    requires Pythagorean(m.sin, m.cos)
    requires v.V3?
    ensures Dot(ViewRotate(m, v, rotX, rotY), ViewRotate(m, v, rotX, rotY)) == Dot(v, v)
  {
    YawPreservesNorm(m, v, rotY);
    PitchPreservesNorm(m, Yaw(m, v, rotY), rotX);
  }

  /** `world_to_screen_3d`. The perspective divide `radius / (3.0 + z2)` has
      no guard; at depth zero Python raises `ZeroDivisionError`, which is
      `None` here. */
  function WorldToScreen3D(m: Libm, v: Vec, cx: int, cy: int, radius: real,
                           rotX: real, rotY: real): (r: Option<ScreenPoint>)
    requires v.V3?
    ensures r.None? <==> CameraDistance + ViewRotate(m, v, rotX, rotY).z == 0.0
    ensures r.Some? ==> ProjectsTo(ViewRotate(m, v, rotX, rotY), cx, cy, radius, r.value)
  {
    Perspective(ViewRotate(m, v, rotX, rotY), cx, cy, radius)
  }

  /** `pt` is where the camera shows the (already rotated) point `p`: each
      coordinate is the rounding of `cx + x * scale` or `cy - y * scale`,
      with `scale = radius / (3 + z)`. */
  predicate ProjectsTo(p: Vec, cx: int, cy: int, radius: real, pt: ScreenPoint)
    requires p.V3?
  {
    && CameraDistance + p.z != 0.0
    && RoundsTo(cx as real + p.x * (radius / (CameraDistance + p.z)), pt.x)
    && RoundsTo(cy as real - p.y * (radius / (CameraDistance + p.z)), pt.y)
  }

  /** The perspective step: `scale = radius / (3.0 + z2)`, then
      `(cx + x2 * scale, cy - y2 * scale)` rounded, which is the 2D map at
      radius `scale`. */
  function Perspective(p: Vec, cx: int, cy: int, radius: real): (r: Option<ScreenPoint>)
    requires p.V3?
    ensures r.None? <==> CameraDistance + p.z == 0.0
    ensures r.Some? ==> ProjectsTo(p, cx, cy, radius, r.value)
  {
    var depth := CameraDistance + p.z;
    if depth == 0.0 then None else Some(WorldToScreen2D(p, cx, cy, radius / depth))
  }

  /** Every vector strictly inside the camera's sphere is projected without
      dividing by zero; in particular the unit vectors and axes the
      visualizer draws always are. */
  lemma ProjectionDefinedInsideCamera(m: Libm, v: Vec, cx: int, cy: int, radius: real,
                                      rotX: real, rotY: real)
    requires Pythagorean(m.sin, m.cos)
    requires v.V3? && Dot(v, v) < CameraDistance * CameraDistance
    ensures WorldToScreen3D(m, v, cx, cy, radius, rotX, rotY).Some?
  {
    var p := ViewRotate(m, v, rotX, rotY);
    ViewRotatePreservesNorm(m, v, rotX, rotY);
    SquareBelowNine(p.x, p.y, p.z);
  }

  lemma SquareBelowNine(x: real, y: real, z: real)
    requires x * x + y * y + z * z < 9.0
    ensures -3.0 < z
  {
    Square(x);
    Square(y);
  }

  /** With both view angles zero the 3D projection is the 2D one, drawn at
      the radius the perspective assigns to the vector's depth. */
  lemma UnrotatedIsPerspective2D(m: Libm, v: Vec, cx: int, cy: int, radius: real)
    requires TrigAtZero(m.sin, m.cos)
    requires v.V3? && CameraDistance + v.z != 0.0
    ensures WorldToScreen3D(m, v, cx, cy, radius, 0.0, 0.0)
            == Some(WorldToScreen2D(v, cx, cy, radius / (CameraDistance + v.z)))
  {
    assert Yaw(m, v, 0.0) == v;
    assert Pitch(m, v, 0.0) == v;
  }
}

=== FILE: scene.dfy ===
/** The per-frame state update of the visualizer's main loop: input events,
    held keys, and the advance of the animation. The state the loop keeps in
    local variables is gathered into one `SceneState` record, and one iteration
    of the loop is `Frame`.
 */
module Scene {
  import opened Options
  import opened Vectors
  import opened Animation

  /** Radians per second while an arrow key is held in 3D mode. */
  const RotationRate: real := 2.0

  /** The discrete input events of one frame. `Randomize` is the R key,
      carrying the two endpoints the random sampler drew for it. */
  datatype Event = Quit | ToggleOverlay | Randomize(newA: Vec, newB: Vec) | Other

  /** The arrow keys held down during a frame. */
  datatype Keys = Keys(left: bool, right: bool, up: bool, down: bool)

  datatype FrameInput = FrameInput(events: seq<Event>, keys: Keys, dt: real)

  /** `rotX` is the pitch and `rotY` the yaw of the 3D view; `showLerp` is
      the LERP overlay flag. */
  datatype SceneState = SceneState(
    is3d: bool,
    a: Vec,
    b: Vec,
    rotX: real,
    rotY: real,
    anim: AnimState,
    showLerp: bool,
    running: bool
  )

  function SessionDim(is3d: bool): nat {
    if is3d then 3 else 2
  }

  /** The scenes the loop can be in: a valid animation, endpoints of the
      session's dimension, and no view rotation in 2D mode. */
  predicate Valid(s: SceneState) {
    && Animation.Valid(s.anim)
    && s.a.Dim() == SessionDim(s.is3d)
    && s.b.Dim() == SessionDim(s.is3d)
    && (!s.is3d ==> s.rotX == 0.0 && s.rotY == 0.0)
  }

  /** The state before the first frame. */
  function Initial(is3d: bool): (s: SceneState)
    ensures Valid(s) && s.is3d == is3d
    ensures s.running && s.showLerp && s.anim.t == 0.0 && s.anim.dir == 1.0
  {
    if is3d then
      SceneState(true, V3(1.0, 0.0, 0.0), V3(0.0, 1.0, 0.0), 0.3, 0.5, Animation.Initial(), true, true)
    else
      SceneState(false, V2(1.0, 0.0), V2(0.0, 1.0), 0.0, 0.0, Animation.Initial(), true, true)
  }

  /** One event of the frame. It only ever touches the running flag, the
      overlay flag or the endpoints. */
  function HandleEvent(s: SceneState, e: Event): (r: SceneState)
    ensures r.is3d == s.is3d && r.anim == s.anim && r.rotX == s.rotX && r.rotY == s.rotY
    ensures r.running == (s.running && e != Quit)
    ensures r.showLerp == (s.showLerp != (e == ToggleOverlay))
    ensures e.Randomize? ==> r.a == e.newA && r.b == e.newB
    ensures !e.Randomize? ==> r.a == s.a && r.b == s.b
  {
    match e
    case Quit => s.(running := false)
    case ToggleOverlay => s.(showLerp := !s.showLerp)
    case Randomize(a, b) => s.(a := a, b := b)
    case Other => s
  }

  /** The number of overlay toggles among `evs`. */
  function Toggles(evs: seq<Event>): nat {
    if evs == [] then 0
    else (if evs[0] == ToggleOverlay then 1 else 0) + Toggles(evs[1..])
  }

  /** The pair drawn for the last R press among `evs`, if there is one.
      It is read from the back, independently of the order in which the
      loop handles the events. */
  function LastRandomize(evs: seq<Event>): (r: Option<(Vec, Vec)>)
    ensures r.None? <==> forall i :: 0 <= i < |evs| ==> !evs[i].Randomize?
    ensures r.Some? ==> Randomize(r.value.0, r.value.1) in evs
    decreases |evs|
  {
    if evs == [] then None
    else
      var last := evs[|evs| - 1];
      if last.Randomize? then Some((last.newA, last.newB))
      else LastRandomize(evs[..|evs| - 1])
  }

  /** Putting an event in front changes the last R press only when the
      rest has none. */
  lemma {:induction false} LastRandomizeCons(e: Event, rest: seq<Event>)
    ensures LastRandomize([e] + rest) ==
              if LastRandomize(rest).Some? then LastRandomize(rest)
              else if e.Randomize? then Some((e.newA, e.newB))
              else None
    decreases |rest|
  {
    var evs := [e] + rest;
    if rest != [] {
      var init := rest[..|rest| - 1];
      assert evs[..|evs| - 1] == [e] + init;
      assert evs[|evs| - 1] == rest[|rest| - 1];
      LastRandomizeCons(e, init);
    }
  }

  /** The frame's events, in order. Only the flags and the endpoints can
      change: the loop stops iff some event is Quit, the overlay flips once
      per toggle, and the endpoints are the pair of the last R press, or
      untouched when there is none. */
  function HandleEvents(s: SceneState, evs: seq<Event>): (r: SceneState)
    ensures r.is3d == s.is3d && r.anim == s.anim
    ensures r.rotX == s.rotX && r.rotY == s.rotY
    ensures r.running == (s.running && Quit !in evs)
    ensures r.showLerp == (s.showLerp != (Toggles(evs) % 2 == 1))
    ensures LastRandomize(evs).Some? ==> (r.a, r.b) == LastRandomize(evs).value
    ensures LastRandomize(evs).None? ==> r.a == s.a && r.b == s.b
    decreases |evs|
  {
    if evs == [] then s
    else
      var r := HandleEvents(HandleEvent(s, evs[0]), evs[1..]);
      assert evs == [evs[0]] + evs[1..];
      LastRandomizeCons(evs[0], evs[1..]);
      r
  }

  /** The 3D arrow keys: LEFT/RIGHT turn the yaw, UP/DOWN the pitch, each by
      `RotationRate * dt`; opposite keys cancel. */
  function RotateView(s: SceneState, keys: Keys, dt: real): (r: SceneState)
    ensures r == s.(rotX := r.rotX, rotY := r.rotY)
    ensures r.rotY == s.rotY + Turn(keys.right, keys.left, dt)
    ensures r.rotX == s.rotX + Turn(keys.down, keys.up, dt)
  {
    var yaw := if keys.left then s.rotY - RotationRate * dt else s.rotY;
    var yaw' := if keys.right then yaw + RotationRate * dt else yaw;
    var pitch := if keys.up then s.rotX - RotationRate * dt else s.rotX;
    var pitch' := if keys.down then pitch + RotationRate * dt else pitch;
    s.(rotX := pitch', rotY := yaw')
  }

  /** The net turn in `dt` seconds with the `plus` and `minus` keys held. */
  function Turn(plus: bool, minus: bool, dt: real): (angle: real)
    ensures plus == minus ==> angle == 0.0
    ensures 0.0 <= dt ==> (plus && !minus ==> 0.0 <= angle) && (minus && !plus ==> angle <= 0.0)
  {
    if plus == minus then 0.0
    else if plus then RotationRate * dt
    else -RotationRate * dt
  }

  /** The held keys: rotation in 3D mode, speed in 2D mode. */
  function HeldKeys(s: SceneState, keys: Keys, dt: real): (r: SceneState)
    ensures r.is3d == s.is3d && r.a == s.a && r.b == s.b
    ensures r.showLerp == s.showLerp && r.running == s.running
    ensures s.is3d ==> r.anim == s.anim
    ensures !s.is3d ==> r.rotX == s.rotX && r.rotY == s.rotY
    ensures s.is3d ==> r.rotY == s.rotY + Turn(keys.right, keys.left, dt)
    ensures s.is3d ==> r.rotX == s.rotX + Turn(keys.down, keys.up, dt)
    ensures !s.is3d ==> r.anim == AdjustSpeed(s.anim, keys.left, keys.right, dt)
  {
    if s.is3d then RotateView(s, keys, dt)
    else s.(anim := AdjustSpeed(s.anim, keys.left, keys.right, dt))
  }

  /** One iteration of the main loop: events, held keys, then the sweep. */
  function Frame(s: SceneState, input: FrameInput): (r: SceneState)
    ensures 0.0 <= r.anim.t <= 1.0
    ensures r.is3d == s.is3d
    ensures r.running == (s.running && Quit !in input.events)
    ensures r.showLerp == (s.showLerp != (Toggles(input.events) % 2 == 1))
    ensures !s.is3d ==> r.rotX == s.rotX && r.rotY == s.rotY
    ensures s.is3d ==> r.anim.speed == s.anim.speed
    ensures LastRandomize(input.events).Some? ==> (r.a, r.b) == LastRandomize(input.events).value
    ensures LastRandomize(input.events).None? ==> r.a == s.a && r.b == s.b
    ensures s.is3d ==> r.rotY == s.rotY + Turn(input.keys.right, input.keys.left, input.dt)
    ensures s.is3d ==> r.rotX == s.rotX + Turn(input.keys.down, input.keys.up, input.dt)
    ensures r.anim == Advance(if s.is3d then s.anim
                              else AdjustSpeed(s.anim, input.keys.left, input.keys.right, input.dt),
                              input.dt)
  {
    var s1 := HandleEvents(s, input.events);
    var s2 := HeldKeys(s1, input.keys, input.dt);
    s2.(anim := Advance(s2.anim, input.dt))
  }

  /** The loop body runs while `running`; a Quit event ends the loop after
      the frame it arrives in. */
  function Run(s: SceneState, frames: seq<FrameInput>): (r: SceneState)
    ensures r.is3d == s.is3d
    ensures r.running == (s.running && forall i :: 0 <= i < |frames| ==> Quit !in frames[i].events)
    ensures !s.running ==> r == s
    decreases |frames|
  {
    if frames == [] || !s.running then s
    else
      var r := Run(Frame(s, frames[0]), frames[1..]);
      assert forall i :: 0 < i < |frames| ==> frames[1..][i - 1] == frames[i];
      r
  }

  /** A single frame of a running loop is `Frame`; a stopped loop ignores
      its input. */
  lemma RunOneFrame(s: SceneState, f: FrameInput)
    ensures Run(s, [f]) == if s.running then Frame(s, f) else s
  {
  }

  /** Running the frames of `f1` and then those of `f2` is running them
      all: with `RunOneFrame` this pins `Run` down as `Frame` applied to
      each input in turn, up to the first Quit. */
  lemma {:induction false} RunSplit(s: SceneState, f1: seq<FrameInput>, f2: seq<FrameInput>)
    ensures Run(s, f1 + f2) == Run(Run(s, f1), f2)
    decreases |f1|
  {
    if f1 == [] {
      assert f1 + f2 == f2;
    } else if s.running {
      assert (f1 + f2)[0] == f1[0];
      assert (f1 + f2)[1..] == f1[1..] + f2;
      RunSplit(Frame(s, f1[0]), f1[1..], f2);
    }
  }

  // ---------------------------------------------------------------------

  /** The sampler draws endpoints of the session's dimension. */
  predicate SamplesFit(is3d: bool, evs: seq<Event>) {
    forall e :: e in evs && e.Randomize? ==>
      e.newA.Dim() == SessionDim(is3d) && e.newB.Dim() == SessionDim(is3d)
  }

  /** What the frame clock and the sampler promise. */
  predicate GoodInput(is3d: bool, input: FrameInput) {
    0.0 <= input.dt && SamplesFit(is3d, input.events)
  }

  lemma FrameKeepsValid(s: SceneState, input: FrameInput)
    requires Valid(s) && GoodInput(s.is3d, input)
    ensures Valid(Frame(s, input))
  {
    var s1 := HandleEvents(s, input.events);
    assert Valid(s1);
    var s2 := HeldKeys(s1, input.keys, input.dt);
    if !s1.is3d {
      AdjustSpeedKeepsValid(s1.anim, input.keys.left, input.keys.right, input.dt);
    }
    assert Valid(s2);
    AdvanceKeepsValid(s2.anim, input.dt);
  }

  /** Every frame of every run from a valid scene keeps it valid: `t` stays
      in [0, 1], the direction in {-1, +1}, the speed in [0.1, 3.0]. */
  lemma {:induction false} RunKeepsValid(s: SceneState, frames: seq<FrameInput>)
    requires Valid(s)
    requires forall i :: 0 <= i < |frames| ==> GoodInput(s.is3d, frames[i])
    ensures Valid(Run(s, frames))
    ensures Run(s, frames).is3d == s.is3d
    decreases |frames|
  {
    if frames != [] && s.running {
      FrameKeepsValid(s, frames[0]);
      var next := Frame(s, frames[0]);
      assert forall i :: 0 <= i < |frames[1..]| ==> frames[1..][i] == frames[i + 1];
      RunKeepsValid(next, frames[1..]);
    }
  }

  /** Pressing SPACE twice in one frame leaves the scene as it was. */
  lemma ToggleTwice(s: SceneState)
    ensures HandleEvents(s, [ToggleOverlay, ToggleOverlay]) == s
  {
    assert Toggles([ToggleOverlay, ToggleOverlay]) == 2;
  }

  /** Holding the same keys for two frames turns the view as far as holding
      them for one frame of the combined length. */
  lemma RotationAccumulates(s: SceneState, keys: Keys, dt1: real, dt2: real)
    ensures RotateView(RotateView(s, keys, dt1), keys, dt2) == RotateView(s, keys, dt1 + dt2)
  {
  }
}

=== FILE: vectors.dfy ===
/** Vector algebra over the 2- and 3-component tuples of `slerp.py`.

    The source dispatches on the length of its FIRST argument only: with a
    2-component `a` it reads the first two components of `b`, so a 3D `b` is
    silently truncated, while a 3-component `a` with a 2-component `b` raises
    an `IndexError`. `Fits(a, b)` is exactly the set of calls that do not
    raise, and every result takes the dimension of `a`.
 */
module Vectors {
  import opened MathLib

  datatype Vec = V2(x: real, y: real) | V3(x: real, y: real, z: real) {
    function Dim(): nat {
      if V2? then 2 else 3
    }
  }

  /** The calls of the binary operations that the source evaluates without
      raising. */
  predicate Fits(a: Vec, b: Vec) {
    a.Dim() <= b.Dim()
  }

  /** Below this length `normalize` gives up and returns the first axis. */
  const NormalizeEpsilon: real := 1e-12

  /** The fallback unit vector of `normalize`: the first axis. */
  function AxisX(dim: nat): (r: Vec)
    requires dim == 2 || dim == 3
    ensures r.Dim() == dim && r.x == 1.0 && r.y == 0.0
  {
    if dim == 2 then V2(1.0, 0.0) else V3(1.0, 0.0, 0.0)
  }

  /** `dot`. With a 2D `a` only the first two components of `b` are read;
      its laws are `DotSelfNonNegative`, `DotSymmetric` and `DotMul`. */
  function Dot(a: Vec, b: Vec): real
    requires Fits(a, b)
  {
    match a
    case V2(ax, ay) => ax * b.x + ay * b.y
    case V3(ax, ay, az) => ax * b.x + ay * b.y + az * b.z
  }

  /** `hypot(x, y)` in 2D and `sqrt(x**2 + y**2 + z**2)` in 3D. */
  function Length(m: Libm, v: Vec): (l: real)
    ensures IsSqrt(m.sqrt) ==> 0.0 <= l && l * l == Dot(v, v)
  {
    DotSelfNonNegative(v);
    m.sqrt(Dot(v, v))
  }

  function Add(a: Vec, b: Vec): (r: Vec)
    requires Fits(a, b)
    ensures r.Dim() == a.Dim()
  {
    match a
    case V2(ax, ay) => V2(ax + b.x, ay + b.y)
    case V3(ax, ay, az) => V3(ax + b.x, ay + b.y, az + b.z)
  }

  function Mul(v: Vec, s: real): (r: Vec)
    ensures r.Dim() == v.Dim()
  {
    match v
    case V2(x, y) => V2(x * s, y * s)
    case V3(x, y, z) => V3(x * s, y * s, z * s)
  }

  /** `a*(1-t) + b*t`; not normalized. */
  function Lerp(a: Vec, b: Vec, t: real): (r: Vec)
    requires Fits(a, b)
    ensures r.Dim() == a.Dim()
  {
    Add(Mul(a, 1.0 - t), Mul(b, t))
  }

  /** `v / length(v)`, or the first axis when the length is below
      `NormalizeEpsilon`. Whatever the input, the result has the input's
      dimension and (see `NormalizeIsUnit`) length one. */
  function Normalize(m: Libm, v: Vec): (r: Vec)
    ensures r.Dim() == v.Dim()
    ensures Length(m, v) < NormalizeEpsilon ==> r == AxisX(v.Dim())
  {
    var l := Length(m, v);
    if l < NormalizeEpsilon then
      AxisX(v.Dim())
    else
      match v
      case V2(x, y) => V2(x / l, y / l)
      case V3(x, y, z) => V3(x / l, y / l, z / l)
  }

  // ---------------------------------------------------------------------
  // Algebraic facts

  lemma DotSelfNonNegative(v: Vec)
    ensures 0.0 <= Dot(v, v)
  {
    Square(v.x);
    Square(v.y);
    if v.V3? {
      Square(v.z);
    }
  }

  lemma Square(x: real)
    ensures 0.0 <= x * x
  {
    if x < 0.0 {
      assert 0.0 < (-x) * (-x);
    }
  }

  lemma DotSymmetric(a: Vec, b: Vec)
    requires a.Dim() == b.Dim()
    ensures Dot(a, b) == Dot(b, a)
  {
  }

  /** Scaling either argument scales the dot product by the same factor. */
  lemma DotMul(a: Vec, b: Vec, s: real)
    requires Fits(a, b)
    ensures Dot(Mul(a, s), b) == s * Dot(a, b)
    ensures Dot(a, Mul(b, s)) == s * Dot(a, b)
  {
  }

  lemma MulOne(v: Vec)
    ensures Mul(v, 1.0) == v
  {
  }

  lemma AddCommutative(a: Vec, b: Vec)
    requires a.Dim() == b.Dim()
    ensures Add(a, b) == Add(b, a)
  {
  }

  // ---------------------------------------------------------------------
  // Interpolation endpoints

  /** `lerp(a, b, 0) == a`, even when a 3D `b` is truncated to a 2D `a`. */
  lemma LerpAtZero(a: Vec, b: Vec)
    requires Fits(a, b)
    ensures Lerp(a, b, 0.0) == a
  {
  }

  lemma LerpAtOne(a: Vec, b: Vec)
    requires a.Dim() == b.Dim()
    ensures Lerp(a, b, 1.0) == b
  {
  }

  /** Interpolating from `a` to `b` at `t` is interpolating from `b` to `a`
      at `1 - t`. */
  lemma LerpSwap(a: Vec, b: Vec, t: real)
    requires a.Dim() == b.Dim()
    ensures Lerp(a, b, t) == Lerp(b, a, 1.0 - t)
  {
  }

  lemma LerpSame(a: Vec, t: real)
    ensures Lerp(a, a, t) == a
  {
  }

  // ---------------------------------------------------------------------
  // Normalization

  /** Above the threshold, normalizing divides by the length: scaling the
      result back by the length restores the input. */
  lemma NormalizeScales(m: Libm, v: Vec)
    requires NormalizeEpsilon <= Length(m, v)
    ensures Mul(Normalize(m, v), Length(m, v)) == v
  {
  }

  /** Over the reals `normalize` always returns a unit vector: the fallback
      axis in the degenerate case, `v / |v|` otherwise. */
  lemma NormalizeIsUnit(m: Libm, v: Vec)
    requires IsSqrt(m.sqrt)
    ensures Dot(Normalize(m, v), Normalize(m, v)) == 1.0
  {
    var l := Length(m, v);
    var r := Normalize(m, v);
    if NormalizeEpsilon <= l {
      NormalizeScales(m, v);
      assert v == Mul(r, l);
      DotMul(r, Mul(r, l), l);
      DotMul(r, r, l);
      assert Dot(v, v) == l * (l * Dot(r, r));
      assert l * l == Dot(v, v);
      assert (l * l) * Dot(r, r) == (l * l) * 1.0;
      assert l * l != 0.0;
      ProductCancel(l * l, Dot(r, r), 1.0);
    }
  }

  /** A non-degenerate input is scaled by a positive factor: its normalized
      form points along it, with `n . v == |v|`. */
  lemma NormalizeAligned(m: Libm, v: Vec)
    requires IsSqrt(m.sqrt)
    requires NormalizeEpsilon <= Length(m, v)
    ensures Dot(Normalize(m, v), v) == Length(m, v)
  {
    var l := Length(m, v);
    var r := Normalize(m, v);
    NormalizeIsUnit(m, v);
    NormalizeScales(m, v);
    assert v == Mul(r, l);
    DotMul(r, r, l);
  }

  /** Normalizing twice is normalizing once. */
  lemma NormalizeIdempotent(m: Libm, v: Vec)
    requires IsSqrt(m.sqrt)
    ensures Normalize(m, Normalize(m, v)) == Normalize(m, v)
  {
    var n := Normalize(m, v);
    NormalizeIsUnit(m, v);
    SqrtOfOne(m.sqrt);
    assert Length(m, n) == 1.0;
    NormalizeScales(m, n);
    MulOne(Normalize(m, n));
  }

  lemma ProductCancel(c: real, a: real, b: real)
    requires c != 0.0 && c * a == c * b
    ensures a == b
  {
  }
}
